=== FILE: README.md ===
# cNGN TypeScript library: wallet derivation, API error handling and envelope opening, in Dafny

This project models the logic of the cNGN TypeScript client library, leaving
out its HTTP plumbing and its cryptographic libraries. The logic falls into
three parts:

- **Wallet derivation** (`CryptoWallet`, `crypto_wallet.dfy`). A closed
  `Network` enumeration is mapped through a static table to BIP-44 derivation
  paths: `m/44'/60'/0'/0/0` for eth, bsc, atc, xbn and matic, and
  `m/44'/195'/0'/0/0` for trx. These are SLIP-0044 coin types 60 (Ether) and
  195 (Tron); matic is derived under Ether's 60, not Polygon's own entry.
  - The derived secp256k1 private key is returned as lower-case hex.
  - Its public key is turned into an address. Ethereum-style addresses are
    `0x` plus the hex of the last 20 bytes of the Keccak-256 digest of the
    public key. Tron addresses are TronWeb's `fromHex` of that address.
  - `base` is in the enumeration but has neither a path nor an address
    encoder, so it is an error.
  - BIP-32 path notation is modelled by a parser and a renderer
    (`derivation_path.dfy`). Every table entry is proved to parse to a
    five-level BIP-44 path.
- **API error handling and response envelopes** (`ApiClient`, `api_client.dfy`).
  - `handleApiError` sorts an error into three forms: "API Error: {status} -
    {message}", "No response received from API" and "Error setting up
    request: {message}".
  - `makeCalls` decides two things. It encrypts the outgoing body only when
    `data` is truthy. It decrypts and replaces `data` in the response only
    when `data` is a string.
  - The model also composes the response interceptor with the `catch` around
    the call. `src/index.ts` holds a verbatim duplicate of this logic, and the
    same model covers both copies.
- **Ed25519 key and box-envelope byte handling** (`Ed25519Box`, `ed25519_box.dfy`).
  - The key file's lines are split, and all but the first and last are
    joined.
  - The decoded bytes are searched for the SSH `string` length prefix
    `00 00 00 40`. This is the uint32 64 of section 5 of RFC 4251.
  - Up to 64 key bytes are cut after that prefix, using `subarray` clamping.
  - The payload is split into nonce, ciphertext and ephemeral public key,
    again with JavaScript `subarray` clamping.
  - Every failure is rewrapped with the fixed "Failed to decrypt ..." prefix.

The JavaScript semantics the code relies on are modelled explicitly in `js.dfy`:
- truthiness;
- template-literal string conversion;
- `Error.prototype.toString`, which is what `${error}` prints as "Error: message";
- property reads, which throw `TypeError` on `undefined`/`null`;
- `slice`/`subarray` index clamping with negative indices;
- `split` and `join`.

Node's `Buffer` hex codec and `indexOf` are modelled in `node_buffer.dfy`.
Hex decoding works on pairs and stops at the first invalid pair.

The cryptographic libraries are not modelled. They are record fields of
function type that every operation takes as a parameter:
- `CryptoWallet.Primitives`: BIP-39 seed, BIP-32 derivation, secp256k1 public key, Keccak-256, TronWeb `fromHex`, BIP-39 mnemonic from entropy.
- `Ed25519Box.Sodium`: base64 decoding, `crypto_sign_ed25519_sk_to_curve25519`, `crypto_box_open_easy`, `to_string`.
- `ApiClient.ClientLib`: `JSON.stringify`, `JSON.parse`, AES encryption.

Their only modelled facts are their types; for instance, a Keccak digest is 32 bytes.
Randomness is a parameter in two places. The mnemonic's 128 bits of entropy are an
argument. The AES initialisation vector is folded into the encryption
parameter.

Some behaviour of the code is worth stating plainly:
- The five Ethereum-compatible networks share one path and one encoder.
  So one mnemonic gives them all the same private key and the same address
  (`EvmNetworksShareWallet`).
- There is no address validation and no regeneration loop. A wallet is
  derived once.
- There is no ed25519 wallet branch.

## Model

| member | source | states |
|---|---|---|
| Networks.NameIsInjective | src/types.ts:35-43 | distinct `Network` members carry distinct string values, so "Unsupported network: {network}" names the member |
| DerivationPath.RenderBip44FirstAddress | src/utils/crypto.wallet.ts:34-39 | the five BIP-44 levels of a coin type are written `m/44'/{coin}'/0'/0/0` |
| CryptoWallet.EvmPathIsBip44 | src/utils/crypto.wallet.ts:34-38 | the path shared by eth, bsc, atc, xbn and matic is the BIP-44 first-address path of SLIP-0044 coin type 60 (Ether) |
| CryptoWallet.TronPathIsBip44 | src/utils/crypto.wallet.ts:39 | the trx path is the BIP-44 first-address path of SLIP-0044 coin type 195 (Tron) |
| CryptoWallet.DerivationPathsFollowBip44 | src/utils/crypto.wallet.ts:33-40 | the table holds exactly the networks the code assigns a coin type to (all but base; the two tables are written to agree), and each entry is non-empty, is the rendering of, and parses to, five levels: purpose 44', coin type 60' (all EVM networks, matic included) or 195' (trx), account 0', change 0 and index 0 unhardened |
| CryptoWallet.EvmNetworksShareWallet | src/utils/crypto.wallet.ts:34-38 | any two of eth, bsc, atc, xbn, matic get the same private key and the same address from one mnemonic |
| CryptoWallet.GetDerivationPath | src/utils/crypto.wallet.ts:42-48 | succeeds exactly for networks in the table, returning the table's string itself, which is the rendered BIP-44 path of the network's coin type and parses back to it; otherwise throws "Unsupported network: {network}" |
| CryptoWallet.StripUncompressedPrefix | src/utils/crypto.wallet.ts:18 | a key starting with "04" loses exactly those two characters; any other key is unchanged |
| CryptoWallet.EthereumStyleAddress | src/utils/crypto.wallet.ts:17-21 | the address is "0x" and 40 lower-case hex digits, and those digits decode to the last 20 bytes of the Keccak-256 digest of the hex-decoded, prefix-stripped key |
| Js.Slice | src/utils/crypto.wallet.ts:20 | `slice`/`subarray` return the elements between the two resolved indices, and nothing when the end does not lie after the start (`hash.slice(-20)` of a 32-byte digest is its last 20 bytes) |
| Js.RelativeIndex | src/utils/Ed25519.standard.ts:36-38 | an index resolves against the length: a negative one counts from the end, and the result is clamped to [0, length] |
| CryptoWallet.TronAddress | src/utils/crypto.wallet.ts:23-26 | the Tron address is TronWeb's `fromHex` of an Ethereum-style address whose 20 bytes are the tail of the key's Keccak-256 digest; that it depends on the key only through that address is `TronAddressFactorsThroughEthereumAddress` |
| CryptoWallet.AddressIgnoresUncompressedPrefix | src/utils/crypto.wallet.ts:17-19 | a key body that does not itself start with "04" gives the same Ethereum-style and Tron addresses with or without the "04" marker in front |
| CryptoWallet.RawKeyStartingWith04IsShortened | src/utils/crypto.wallet.ts:18-19 | the marker test looks only at the first two digits: a 128-digit key without marker whose first byte is 0x04 loses that byte, so at most 63 bytes are hashed |
| CryptoWallet.TronAddressFactorsThroughEthereumAddress | src/utils/crypto.wallet.ts:23-26 | keys with equal Ethereum-style addresses have equal Tron addresses: the Tron address depends on the key only through that address |
| CryptoWallet.AddressFromPublicKey | src/utils/crypto.wallet.ts:58-71 | succeeds exactly for the networks that have a derivation path; the EVM networks get the Ethereum-style address, trx the Tron address, base throws "Unsupported network: base" |
| CryptoWallet.GetPrivateKeyFromMnemonic | src/utils/crypto.wallet.ts:50-56 | succeeds exactly for networks with a path; the key is even-length lower-case hex that decodes to the BIP-32 derivation of the mnemonic's seed along m/44'/coin'/0'/0/0 |
| CryptoWallet.UnsupportedNetworkFailsInPrivateKeyStep | src/utils/crypto.wallet.ts:73-76 | for a network without a path, generation fails with the private-key step's error "Unsupported network: …", whatever the key, hash and address primitives do |
| CryptoWallet.GenerateWalletFromMnemonic | src/utils/crypto.wallet.ts:73-83 | succeeds exactly for networks with a path; echoes mnemonic and network; its private key is the derived one, its address is the address of that key's public key, and it is Ethereum-style for the EVM networks |
| CryptoWallet.WalletDependsOnlyOnSeed | src/utils/crypto.wallet.ts:50-56 | two mnemonics with the same seed give the same wallet apart from the echoed mnemonic |
| CryptoWallet.GenerateWalletWithMnemonic | src/utils/crypto.wallet.ts:85-88 | is exactly wallet generation from the mnemonic of the given 128 bits of entropy: the wallet carries that mnemonic, its private key is the one derived from that mnemonic, it succeeds exactly for networks with a path, and its address is that of its own private key |
| DerivationPath.ParseRenderPath | src/utils/crypto.wallet.ts:54 | reading back a rendered BIP-32 path gives its levels, index and hardening alike |
| NodeBuffer.HexDecodeOfEncode | src/utils/crypto.wallet.ts:20 | hex-decoding the lower-case hex encoding of bytes gives back the bytes |
| NodeBuffer.HexEncodeOfDecode | src/utils/crypto.wallet.ts:55 | hex-encoding the decoding of an even-length lower-case hex string gives back the string |
| NodeBuffer.HexEncode | src/utils/crypto.wallet.ts:20 | `toString('hex')` gives two lower-case hexadecimal digits per byte |
| NodeBuffer.HexEncodeDigits | src/utils/crypto.wallet.ts:55 | byte i is written as its high nibble at position 2i and its low nibble at 2i+1 |
| NodeBuffer.HexDecode | src/utils/crypto.wallet.ts:19 | `Buffer.from(s, 'hex')` yields at most one byte per two characters |
| NodeBuffer.HexDecodePairs | src/utils/crypto.wallet.ts:19 | byte i of `Buffer.from(s, 'hex')` is the value of the digit pair at 2i, and decoding stops exactly at the first position with no full pair of hexadecimal digits |
| Js.JoinSplit | src/utils/Ed25519.standard.ts:16 | joining the pieces of `split` with the separator gives back the text |
| Js.SplitJoin | src/utils/Ed25519.standard.ts:16-17 | splitting a join of separator-free lines gives back the lines |
| Js.Split | src/utils/Ed25519.standard.ts:16 | `split('\n')` yields at least one piece and no piece contains the separator; with `JoinSplit` the pieces rejoin to the text |
| Ed25519Box.Base64Body | src/utils/Ed25519.standard.ts:16-17 | the base64 body contains no line break |
| Ed25519Box.Base64BodyOfLines | src/utils/Ed25519.standard.ts:16-17 | for a file with at least two lines, the body is every line strictly between the first and the last, concatenated |
| Ed25519Box.Base64BodyKeepsFooterAfterFinalNewline | src/utils/Ed25519.standard.ts:16-17 | when the file ends with a newline, the body is every line after the first, footer included |
| NodeBuffer.IndexOf | src/utils/Ed25519.standard.ts:20 | the result is -1 exactly when the marker occurs nowhere; otherwise the marker occurs there and at no smaller index |
| Ed25519Box.ParseOpenSSHPrivateKey | src/utils/Ed25519.standard.ts:15-26 | fails with "Unable to find Ed25519 key data" exactly when the decoded body lacks 00 00 00 40; otherwise returns the bytes [k+4, k+68) clamped to the buffer end, for the first marker index k: at most 64 bytes, exactly 64 when the buffer is long enough, never the marker |
| Ed25519Box.SplitEnvelope | src/utils/Ed25519.standard.ts:36-38 | the nonce is the first 24 bytes and the ephemeral key the last 32, clamped; with at least 56 bytes, nonce, ciphertext and key concatenate back to the payload; with fewer, the ciphertext is empty |
| Ed25519Box.OpenEnvelope | src/utils/Ed25519.standard.ts:32-47 | a key-parsing failure is the failure of the whole sequence; success needs a parsed key |
| Ed25519Box.DecryptWithPrivateKey | src/utils/Ed25519.standard.ts:31-50 | fails exactly when a step inside the `try` fails, and every failure is an `Error` whose message starts "Failed to decrypt with the provided Ed25519 private key: "; a missing marker surfaces as that prefix followed by "Error: Unable to find Ed25519 key data", and any failure as that prefix followed by `${error}` of the error the steps threw; on success it returns the text of the `try` steps unchanged |
| Js.TruthyIsNotFalsy | src/services/cngn.manager.ts:44-47 | a value is truthy exactly when it is none of `undefined`, `null`, `false`, `0` and `""` (the tests of `error.response`, `error.request` and `data`) |
| Js.PlainError | src/services/cngn.manager.ts:48 | `new Error(m)` has the name "Error" and the message m |
| Js.PropertyReadError | src/services/cngn.manager.ts:45 | reading a property of `undefined` or `null` throws a TypeError whose message starts "Cannot read properties of " and ends with the key read |
| Js.Join | src/utils/Ed25519.standard.ts:17 | `join` of at least one piece starts with the first piece and is as long as the pieces plus one separator between each two |
| Networks.Name | src/utils/crypto.wallet.ts:45 | `${network}` is the member's string value, at least three lower-case letters |
| CryptoWallet.UnsupportedNetwork | src/utils/crypto.wallet.ts:44-46 | the thrown error is a plain `Error` whose message is "Unsupported network: " followed by the network's string value (the same error as line 69) |
| Js.Get | src/services/cngn.manager.ts:62 | a property read throws a TypeError exactly on undefined or null; on a plain object it yields the own field, or undefined when the key is missing (the reads of `data` and `message`) |
| Js.PlainErrorToString | src/utils/Ed25519.standard.ts:49 | `${error}` of a plain `Error` with a non-empty message is "Error: " followed by the message, which can be read back after seven characters |
| Js.ErrorToString | src/utils/Ed25519.standard.ts:49 | `${error}` starts with the error's name and ends with its message, joined by ": " when both are non-empty |
| ApiClient.MessageOrUnknown | src/services/cngn.manager.ts:45 | a falsy message becomes "Unknown error"; a non-empty string message is kept |
| Decimal.IntToString | src/services/cngn.manager.ts:45 | the status in the template literal prints as digits that read back to its value, with '-' exactly for negatives and no leading zero in the digits, for negatives as for the rest |
| Js.ToString | src/services/cngn.manager.ts:51 | a template literal substitutes a string as itself, `undefined` as "undefined", and a non-negative whole number as digits that read back to it |
| ApiClient.FromThrown | src/services/cngn.manager.ts:72-73 | the `catch` sees an `Error` thrown by code as a value with no response, a falsy request and the error's message as a string |
| ApiClient.HandleApiError | src/services/cngn.manager.ts:43-53 | never returns normally; the message has the "API Error: " form exactly when a response is present and readable, with "{status} - {message or Unknown error}"; it is "No response received from API" exactly when there is no response but a request, and then the thrown value is a plain `Error` with that message; it is "Error setting up request: {message}" exactly when there is neither; an unreadable response body throws a TypeError |
| ApiClient.ResponseTakesPrecedence | src/index.ts:39-49 | with both a response and a request present, neither the "No response" nor the set-up form is produced |
| ApiClient.ReclassifyingWrapsAsSetupError | src/services/cngn.manager.ts:50-51 | classifying an error that the classifier itself threw gives "Error setting up request: " followed by the first message |
| ApiClient.ClassifierTestCases | src/__test__/test.spec.ts:322-352 | the three test inputs give "API Error: 400 - API Error", "No response received from API" and "Error setting up request: Network Error" |
| ApiClient.OutgoingBody | src/services/cngn.manager.ts:60 | a body is sent exactly when `data` is truthy, and it is the encryption of `JSON.stringify(data)` under the caller's key |
| ApiClient.ProcessResponse | src/services/cngn.manager.ts:62-70 | a non-string `data` returns the body unchanged; for a string `data`, a decryption failure or a `JSON.parse` failure is the result's failure, and otherwise the call succeeds with `data` replaced by the parse of its decryption, every other field and the key set kept; reading `data` of an undefined body throws |
| ApiClient.MakeCalls | src/services/cngn.manager.ts:55-75 | every failure's message starts with "Error setting up request: "; a rejected request carries that prefix before the interceptor's classification; a resolved one returns the processed body or its error, classified once |
| ApiClient.RejectionReclassified | src/index.ts:68-69 | a rejection whose classification is m reaches the caller as "Error setting up request: " + m, and as the classification itself when classified once |
| ApiClient.MakeCallsHidesClassification | src/index.ts:33-36 | no failure of `makeCalls` as written has the "API Error" form or is the "No response" message |
| ApiClient.DoubleClassificationExample | src/__test__/test.spec.ts:322-334 | for the test's 400 response, `makeCalls` as written fails with "Error setting up request: API Error: 400 - API Error"; classified once, it fails with "API Error: 400 - API Error" |
| ApiClient.MakeCallsClassifiedOnce | src/services/cngn.manager.ts:72-74 | a rejected request fails with exactly the classifier's error; resolved responses behave as in `makeCalls` |
| ApiClient.ClassifiedOnceKeepsClassification | src/index.ts:39-49 | classified once, a readable response surfaces in the "API Error" form and a response-less request as "No response received from API" |

## Findings

| source | as written | input that shows it | evidently intended | confidence | as-written member | corrected member |
|---|---|---|---|---|---|---|
| src/services/cngn.manager.ts:37-40 | the response interceptor runs `handleApiError` on every axios rejection and throws a plain `Error`; the `catch` at lines 72-74 runs `handleApiError` on that error again. It has no `response` or `request`, so callers always get "Error setting up request: …" (the same holds in src/index.ts:33-36 and 68-69) | the request is rejected with `{response: {status: 400, data: {message: "API Error"}}}`, the test at src/__test__/test.spec.ts:322-334 | the caller sees "API Error: 400 - API Error", as the test expects; the test mocks axios, so its interceptor never runs | medium; not executed | ApiClient.MakeCalls, ApiClient.DoubleClassificationExample | ApiClient.MakeCallsClassifiedOnce, ApiClient.ClassifiedOnceKeepsClassification |

## Left out

- Cryptographic libraries: secp256k1, Keccak-256, BIP-39 seed and mnemonic generation, BIP-32 derivation, TronWeb base58check, base64 decoding and libsodium. They are parameters with no behaviour beyond their types. The fields of `CryptoWallet.Primitives`, `Sodium.base64Decode` and `ClientLib.stringify` and `aesEncrypt` are total: a throw inside BIP-39, BIP-32 derivation (an unusable derived key, say), secp256k1, Keccak-256, TronWeb or the AES wrapper is not modelled. `Sodium.skToCurve25519`, `boxOpenEasy` and `toUtf8String` and `ClientLib.jsonParse` return a result, so their throws are modelled.
- `CryptoWallet.getPublicKey` and `generateMnemonic`: one-line calls into the libraries. They are the `publicKeyHex` and `entropyToMnemonic` parameters. The entropy is an argument instead of a secure random source.
- src/utils/aes.standard.ts: a wrapper over Node's AES-256-CBC with a SHA-256 key and a random IV. Its encryption is the `aesEncrypt` parameter.
- HTTP transport: axios instance creation, base URLs, authorization headers and the per-endpoint methods (`getBalance`, `withdraw`, `swapAsset`, …). The call's outcome is the `transport` parameter. Async scheduling and promises are modelled as results.
- The libsodium `initialize` latch: it awaits library readiness and has no logic.
- src/services/wallet.manager.ts: a try/catch wrapper around `generateWalletWithMnemonicDetails`, which src/utils/crypto.wallet.ts does not define. It is not modelled.
- src/types/index.ts and src/utils/types.ts: data-transfer types without behaviour. Only the `Network` enumeration and the `GeneratedWalletAddress` shape of src/types.ts are used.
- `GeneratedWalletAddress.mnemonic`: the type allows `null`, but the code always sets a string. The model's field is a string.
- JavaScript numbers are whole numbers here, and unbounded. NaN, fractions, `-0`, the loss of precision above 2^53 and the exponent notation `${n}` uses from 10^21 upward are not modelled; the only numbers printed are HTTP statuses, which are three digits. Objects print as "[object Object]"; custom `toString` methods are not modelled.
- CryptoWallet.AddressIgnoresUncompressedPrefix: covers only key bodies that do not themselves start with "04". The test `startsWith('04')` ignores the length, so a raw 128-digit key whose first byte is 0x04 is cut short (`RawKeyStartingWith04IsShortened`). The elliptic library's `getPublic('hex')` always returns the 130-digit uncompressed form with its marker, so the code never meets such a key; this is not listed as a finding.
- Js.Get: models a property read only for keys that are own fields of a plain object, which is all the code reads (`data`, `message`, `response`, `request`). Built-in properties such as a string's `length` read as `undefined` here.
- `error.response` is either absent or an object with a numeric `status`. Other truthy values are not modelled.
- The HTTP body's `data` field is one `Value`. JSON text is abstract, behind the `stringify`/`jsonParse` parameters.
- Ed25519Box.OpenEnvelope: states only that a parse failure is the sequence's failure and that success needs a parsed key. The later steps are library parameters, and their composition is only in the body.
- Ed25519Box.DecryptWithPrivateKey: does not state the decrypted text beyond its being the result of `OpenEnvelope`. The text comes from library parameters.
- Address validation with regeneration, an ed25519 wallet branch and key zeroisation: the code has none of these, so they are not modelled.

=== FILE: api_client.dfy ===
/** The request/response logic of the API managers (`cNGNManager` and its
    twin `CNGnManager`): the error classifier `handleApiError`, the decision to
    encrypt an outgoing body, the decision to decrypt and replace `data` in a
    response, and `makeCalls`, which composes them with the axios response
    interceptor.

    The HTTP transport is a parameter: it receives the outgoing body and
    either resolves with the response body or rejects with an axios error. */
module ApiClient {
  import opened Wrappers
  import opened Js
  import Decimal
  import Ed25519Box

  const ApiErrorPrefix: string := "API Error: "
  const UnknownErrorText: string := "Unknown error"
  const NoResponseMessage: string := "No response received from API"
  const SetupErrorPrefix: string := "Error setting up request: "

  /** `error.response`: the HTTP status and the parsed response body. */
  datatype HttpResponse = HttpResponse(status: int, data: Value)

  /** What `handleApiError` reads of the value it is given: `response`
      (absent when falsy), `request` and `message`. */
  datatype RequestError = RequestError(response: Option<HttpResponse>, request: Value, message: Value)

  /** An `Error` thrown by code rather than by axios, as the handler sees it:
      a string message, and no `response` or `request`. */
  function FromThrown(e: Error): (r: RequestError)
    ensures r.response.None? && !Truthy(r.request) && r.message == Str(e.message)
  {
    RequestError(None, Undefined, Str(e.message))
  }

  /** `error.response.data.message || 'Unknown error'`, once the read succeeded. */
  function MessageOrUnknown(message: Value): (s: string)
    ensures !Truthy(message) ==> s == UnknownErrorText
    ensures message.Str? && message.s != "" ==> s == message.s
  {
    if Truthy(message) then ToString(message) else UnknownErrorText
  }

  /** Classifies an error into the thrown `Error`. It never returns normally:
      `response` is checked first, then `request`; reading `message` from a
      response without a body throws a `TypeError` instead. */
  function HandleApiError(e: RequestError): (r: Result<(), Error>)
    ensures r.Failure?
    ensures HasPrefix(r.error.message, ApiErrorPrefix) <==>
              e.response.Some? && Get(e.response.value.data, "message").Success?
    ensures r.error.message == NoResponseMessage <==> e.response.None? && Truthy(e.request)
    ensures e.response.None? && Truthy(e.request) ==> r.error == PlainError(NoResponseMessage)
    ensures HasPrefix(r.error.message, SetupErrorPrefix) <==> e.response.None? && !Truthy(e.request)
    ensures e.response.Some? && Get(e.response.value.data, "message").Success? ==>
              r.error == PlainError(ApiErrorPrefix + Decimal.IntToString(e.response.value.status) + " - "
                                    + MessageOrUnknown(Get(e.response.value.data, "message").value))
    ensures e.response.Some? && Get(e.response.value.data, "message").Failure? ==> r.error.name == "TypeError"
    ensures e.response.None? && !Truthy(e.request) ==>
              r.error == PlainError(SetupErrorPrefix + ToString(e.message))
  {
    // The asserts on leading characters below tell the three message forms
    // (and the TypeError, which starts "Cannot") apart for the iff clauses.
    if e.response.Some? then
      match Get(e.response.value.data, "message")
      case Failure(typeError) =>
        assert typeError.message[0] == 'C';
        Failure(typeError)
      case Success(message) =>
        var text := ApiErrorPrefix + Decimal.IntToString(e.response.value.status) + " - " + MessageOrUnknown(message);
        assert HasPrefix(text, ApiErrorPrefix) && text[0] == 'A';
        Failure(PlainError(text))
    else if Truthy(e.request) then
      assert NoResponseMessage[0] == 'N';
      Failure(PlainError(NoResponseMessage))
    else
      var text := SetupErrorPrefix + ToString(e.message);
      assert HasPrefix(text, SetupErrorPrefix) && text[0] == 'E' && text[1] == 'r';
      Failure(PlainError(text))
  }

  /** A present `response` wins over a present `request`. */
  lemma ResponseTakesPrecedence(e: RequestError)
    requires e.response.Some? && Truthy(e.request)
    ensures HandleApiError(e).error.message != NoResponseMessage
    ensures !HasPrefix(HandleApiError(e).error.message, SetupErrorPrefix)
  {
  }

  /** Classifying the error a classification threw gives the set-up form
      wrapped around the first message. */
  lemma ReclassifyingWrapsAsSetupError(e: RequestError)
    ensures var first := HandleApiError(e).error;
            HandleApiError(FromThrown(first)) == Failure(PlainError(SetupErrorPrefix + first.message))
  {
  }

  /** The outgoing request body as `AESCrypto.encrypt` returns it. */
  datatype EncryptedBody = EncryptedBody(content: string, iv: string)

  /** The caller's credentials. */
  datatype Secrets = Secrets(apiKey: string, privateKey: string, encryptionKey: string)

  /** The library functions `makeCalls` uses.
      - stringify: `JSON.stringify`
      - aesEncrypt: `AESCrypto.encrypt(text, key)`, its random IV included
      - jsonParse: `JSON.parse`, which throws on malformed text
      - sodium: what the response decryption uses */
  datatype ClientLib = ClientLib(
    stringify: Value -> string,
    aesEncrypt: (string, string) -> EncryptedBody,
    jsonParse: string -> Result<Value, Error>,
    sodium: Ed25519Box.Sodium)

  /** The `data` sent with the request: the encrypted JSON text of `data` when
      it is truthy, and `undefined` otherwise. */
  function OutgoingBody(lib: ClientLib, secrets: Secrets, data: Value): (r: Option<EncryptedBody>)
    ensures r.Some? <==> Truthy(data)
    ensures r.Some? ==> r.value == lib.aesEncrypt(lib.stringify(data), secrets.encryptionKey)
  {
    if Truthy(data) then Some(lib.aesEncrypt(lib.stringify(data), secrets.encryptionKey)) else None
  }

  /** The response body returned to the caller. When `body.data` is a string
      it is decrypted, parsed, and put in place of `data`, every other field
      kept; otherwise the body is returned as it is. */
  function ProcessResponse(lib: ClientLib, secrets: Secrets, body: Value): (r: Result<Value, Error>)
    ensures Get(body, "data").Failure? ==> r == Failure(Get(body, "data").error)
    ensures Get(body, "data").Success? && !Get(body, "data").value.Str? ==> r == Success(body)
    ensures Get(body, "data").Success? && Get(body, "data").value.Str? ==>
              && body.Object?
              && var d := Ed25519Box.DecryptWithPrivateKey(lib.sodium, secrets.privateKey, body.fields["data"].s);
              && (d.Failure? ==> r == Failure(d.error))
              && (d.Success? && lib.jsonParse(d.value).Failure? ==> r == Failure(lib.jsonParse(d.value).error))
              && (d.Success? && lib.jsonParse(d.value).Success? ==> r.Success?)
              && (r.Success? ==>
                    && r.value.Object?
                    && r.value.fields.Keys == body.fields.Keys
                    && (forall k :: k in body.fields && k != "data" ==> r.value.fields[k] == body.fields[k])
                    && d.Success?
                    && lib.jsonParse(d.value) == Success(r.value.fields["data"]))
  {
    var inner :- Get(body, "data");
    if inner.Str? then
      var text :- Ed25519Box.DecryptWithPrivateKey(lib.sodium, secrets.privateKey, inner.s);
      var parsed :- lib.jsonParse(text);
      Success(Object(body.fields["data" := parsed]))
    else
      Success(body)
  }

  /** The outcome of the HTTP call: the response body, or the axios error. */
  datatype Transport = Resolved(body: Value) | Rejected(error: RequestError)

  /** `makeCalls` as written. A rejected request passes through the response
      interceptor, which classifies it and throws; the `catch` then classifies
      that thrown `Error` once more. A failure while processing a response is
      classified once, by the `catch`. */
  function MakeCalls(lib: ClientLib, secrets: Secrets, data: Value, transport: Option<EncryptedBody> -> Transport)
    : (r: Result<Value, Error>)
    ensures r.Failure? ==> HasPrefix(r.error.message, SetupErrorPrefix)
    ensures transport(OutgoingBody(lib, secrets, data)).Rejected? ==>
              r == Failure(PlainError(SetupErrorPrefix +
                     HandleApiError(transport(OutgoingBody(lib, secrets, data)).error).error.message))
    ensures transport(OutgoingBody(lib, secrets, data)).Resolved? ==>
              var processed := ProcessResponse(lib, secrets, transport(OutgoingBody(lib, secrets, data)).body);
              && (r.Success? <==> processed.Success?)
              && (r.Success? ==> r.value == processed.value)
              && (r.Failure? ==> r.error.message == SetupErrorPrefix + processed.error.message)
  {
    match transport(OutgoingBody(lib, secrets, data))
    case Rejected(axiosError) =>
      var intercepted := HandleApiError(axiosError).error;
      ReclassifyingWrapsAsSetupError(axiosError);
      Failure(HandleApiError(FromThrown(intercepted)).error)
    case Resolved(body) =>
      match ProcessResponse(lib, secrets, body)
      case Success(v) => Success(v)
      case Failure(e) => Failure(HandleApiError(FromThrown(e)).error)
  }

  /** `makeCalls` with the rejection classified once: the interceptor's
      classification reaches the caller unchanged. */
  function MakeCallsClassifiedOnce(lib: ClientLib, secrets: Secrets, data: Value, transport: Option<EncryptedBody> -> Transport)
    : (r: Result<Value, Error>)
    ensures transport(OutgoingBody(lib, secrets, data)).Rejected? ==>
              r == HandleApiError(transport(OutgoingBody(lib, secrets, data)).error).PropagateFailure()
    ensures transport(OutgoingBody(lib, secrets, data)).Resolved? ==> r == MakeCalls(lib, secrets, data, transport)
  {
    match transport(OutgoingBody(lib, secrets, data))
    case Rejected(axiosError) => Failure(HandleApiError(axiosError).error)
    case Resolved(body) =>
      match ProcessResponse(lib, secrets, body)
      case Success(v) => Success(v)
      case Failure(e) => Failure(HandleApiError(FromThrown(e)).error)
  }

  /** No error message of `makeCalls` as written has the "API Error" form or is
      the "No response" message: those two forms never reach the caller. */
  lemma MakeCallsHidesClassification(lib: ClientLib, secrets: Secrets, data: Value, transport: Option<EncryptedBody> -> Transport)
    ensures var r := MakeCalls(lib, secrets, data, transport);
            r.Failure? ==> !HasPrefix(r.error.message, ApiErrorPrefix) && r.error.message != NoResponseMessage
  {
    var r := MakeCalls(lib, secrets, data, transport);
    if r.Failure? {
      assert r.error.message[0] == 'E';
    }
  }

  /** With a single classification a rejected request surfaces with exactly
      the message the classifier gives it, for every kind of rejection. */
  lemma ClassifiedOnceKeepsClassification(lib: ClientLib, secrets: Secrets, data: Value, e: RequestError)
    ensures var r := MakeCallsClassifiedOnce(lib, secrets, data, _ => Rejected(e));
            && r.Failure?
            && (e.response.Some? && Get(e.response.value.data, "message").Success? ==> HasPrefix(r.error.message, ApiErrorPrefix))
            && (e.response.None? && Truthy(e.request) ==> r.error.message == NoResponseMessage)
  {
  }

  /** The error-handling cases exercised by the library's tests, through the
      classifier. */
  lemma ClassifierTestCases()
    ensures HandleApiError(BadRequestError()) == Failure(PlainError("API Error: 400 - API Error"))
    ensures HandleApiError(RequestError(None, Object(map[]), Undefined)) == Failure(PlainError(NoResponseMessage))
    ensures HandleApiError(FromThrown(PlainError("Network Error"))) == Failure(PlainError("Error setting up request: Network Error"))
  {
    BadRequestCase();
    assert HandleApiError(RequestError(None, Object(map[]), Undefined)) == Failure(PlainError(NoResponseMessage));
    SetupCase();
  }

  /** The 400 response of the first test case. */
  lemma BadRequestCase()
    ensures HandleApiError(BadRequestError()) == Failure(PlainError("API Error: 400 - API Error"))
  {
    var body := Object(map["message" := Str("API Error")]);
    assert Get(body, "message") == Success(Str("API Error"));
    assert MessageOrUnknown(Str("API Error")) == "API Error";
    assert Decimal.IntToString(400) == "400" by {
      assert Decimal.NatToString(4) == "4";
      assert Decimal.NatToString(40) == "40";
      assert Decimal.NatToString(400) == "400";
    }
    assert ApiErrorPrefix + "400" + " - " + "API Error" == "API Error: 400 - API Error";
  }

  /** A plain `Error("Network Error")` thrown before any request, the third case. */
  lemma SetupCase()
    ensures HandleApiError(FromThrown(PlainError("Network Error"))) == Failure(PlainError("Error setting up request: Network Error"))
  {
    assert ToString(Str("Network Error")) == "Network Error";
    assert SetupErrorPrefix + "Network Error" == "Error setting up request: Network Error";
  }

  /** The response-error test case: a 400 response whose body carries the message "API Error". */
  function BadRequestError(): RequestError
  {
    RequestError(Some(HttpResponse(400, Object(map["message" := Str("API Error")]))), Undefined, Undefined)
  }

  /** A rejected request reaches the caller of `makeCalls` as written with the
      set-up prefix in front of its classification. */
  lemma RejectionReclassified(lib: ClientLib, secrets: Secrets, data: Value,
                              transport: Option<EncryptedBody> -> Transport, e: RequestError, message: string)
    requires transport(OutgoingBody(lib, secrets, data)) == Rejected(e)
    requires HandleApiError(e).error.message == message
    ensures MakeCalls(lib, secrets, data, transport) == Failure(PlainError(SetupErrorPrefix + message))
    ensures MakeCallsClassifiedOnce(lib, secrets, data, transport) == HandleApiError(e).PropagateFailure()
  {
  }

  /** The first test case through `makeCalls` as written: a GET (no body)
      rejected with a 400 reaches the caller in the set-up form, not as
      "API Error: 400 - API Error"; classified once, it does. */
  lemma DoubleClassificationExample(lib: ClientLib, secrets: Secrets, transport: Option<EncryptedBody> -> Transport)
    requires transport(None) == Rejected(BadRequestError())
    ensures MakeCalls(lib, secrets, Undefined, transport)
            == Failure(PlainError("Error setting up request: API Error: 400 - API Error"))
    ensures MakeCallsClassifiedOnce(lib, secrets, Undefined, transport)
            == Failure(PlainError("API Error: 400 - API Error"))
  {
    var message := "API Error: 400 - API Error";
    assert OutgoingBody(lib, secrets, Undefined) == None;
    assert HandleApiError(BadRequestError()).error.message == message by {
      ClassifierTestCases();
    }
    RejectionReclassified(lib, secrets, Undefined, transport, BadRequestError(), message);
    assert HandleApiError(BadRequestError()) == Failure(PlainError(message)) by {
      ClassifierTestCases();
    }
    ExampleSetupMessage();
  }

  /** The caller's message in the example, spelled out. */
  lemma ExampleSetupMessage()
    ensures SetupErrorPrefix + "API Error: 400 - API Error" == "Error setting up request: API Error: 400 - API Error"
  {
  }
}

=== FILE: crypto_wallet.dfy ===
/** Wallet derivation (`CryptoWallet`): a mnemonic and a network select a
    BIP-44 derivation path from a fixed table, the derived secp256k1 private
    key gives a public key, and the network selects the address encoder:
    Ethereum-style (the rightmost 160 bits of the Keccak-256 digest of the
    public key, as in Appendix F of the Ethereum Yellow Paper, in lower-case
    hex after `0x`) or Tron (TronWeb's `fromHex` of that address).

    The cryptographic libraries are not modelled; they are the fields of
    `Primitives`, passed in as parameters. */
module CryptoWallet {
  import opened Wrappers
  import opened Js
  import opened NodeBuffer
  import opened DerivationPath
  import opened Networks

  /** A Keccak-256 digest: 32 bytes. */
  type Digest = s: seq<uint8> | |s| == 32 witness seq(32, _ => 0)

  /** The strength passed to the mnemonic generator (the source calls it
      `MNEMONIC_ENTROPY_BYTES`, but the value is in bits). */
  const MnemonicEntropyBits: nat := 128

  /** 128 bits of entropy: the randomness behind a fresh 12-word mnemonic. */
  type Entropy = s: seq<uint8> | |s| == 16 witness seq(16, _ => 0)

  /** The library functions the wallet code calls.
      - mnemonicToSeed: BIP-39 seed of a mnemonic (no passphrase)
      - derivePrivateKey: BIP-32 master key of a seed, derived along a path
        written in BIP-32 notation; the private key bytes of the child
      - publicKeyHex: secp256k1 public key of a hex private key, as hex
      - keccak256: the Keccak-256 hash
      - tronFromHex: TronWeb's `address.fromHex`
      - entropyToMnemonic: BIP-39 mnemonic of 128 bits of entropy */
  datatype Primitives = Primitives(
    mnemonicToSeed: string -> seq<uint8>,
    derivePrivateKey: (seq<uint8>, string) -> seq<uint8>,
    publicKeyHex: string -> string,
    keccak256: seq<uint8> -> Digest,
    tronFromHex: string -> string,
    entropyToMnemonic: Entropy -> string)

  /** The record a wallet generation returns. */
  datatype GeneratedWalletAddress = GeneratedWalletAddress(
    mnemonic: string,
    address: string,
    network: Network,
    privateKey: string)

  const EvmPath: string := "m/44'/60'/0'/0/0"
  const TronPath: string := "m/44'/195'/0'/0/0"

  /** The static derivation-path table. `Base` has no entry. */
  const DerivationPaths: map<Network, string> := map[
    Eth := EvmPath,
    Bsc := EvmPath,
    Atc := EvmPath,
    Xbn := EvmPath,
    Matic := EvmPath,
    Trx := TronPath
  ]

  /** The coin type the code derives each network under: Ether's SLIP-0044
      number 60 for all five Ethereum-compatible chains (Polygon's own entry,
      966, is not used), Tron's 195 for Tron, and none for `Base`, which the
      table leaves out although it is an Ethereum-compatible chain too. */
  function Slip44CoinType(n: Network): Option<nat>
  {
    match n
    case Trx => Some(195)
    case Base => None
    case _ => Some(60)
  }

  lemma EvmPathIsBip44()
    ensures EvmPath == RenderPath(Bip44FirstAddress(60))
  {
    RenderBip44FirstAddress(60);
    Numeral60();
    EvmPathSpelledOut();
  }

  lemma TronPathIsBip44()
    ensures TronPath == RenderPath(Bip44FirstAddress(195))
  {
    RenderBip44FirstAddress(195);
    Numeral195();
    TronPathSpelledOut();
  }

  lemma Numeral60()
    ensures Decimal.NatToString(60) == "60"
  {
    assert Decimal.NatToString(6) == "6";
    assert Decimal.NatToString(60) == Decimal.NatToString(6) + [Decimal.DigitChar(0)];
  }

  lemma Numeral195()
    ensures Decimal.NatToString(195) == "195"
  {
    assert Decimal.NatToString(1) == "1";
    assert Decimal.NatToString(19) == Decimal.NatToString(1) + [Decimal.DigitChar(9)];
    assert Decimal.NatToString(195) == Decimal.NatToString(19) + [Decimal.DigitChar(5)];
  }

  lemma EvmPathSpelledOut()
    ensures "m/44'/" + "60" + "'/0'/0/0" == EvmPath
  {
  }

  lemma TronPathSpelledOut()
    ensures "m/44'/" + "195" + "'/0'/0/0" == TronPath
  {
  }

  /** The table holds exactly the networks with a coin type, and each entry is
      the five-level BIP-44 path `m/44'/coin'/0'/0/0` of that coin type. */
  lemma DerivationPathsFollowBip44(n: Network)
    ensures n in DerivationPaths <==> Slip44CoinType(n).Some?
    ensures n in DerivationPaths ==>
              && DerivationPaths[n] != ""
              && DerivationPaths[n] == RenderPath(Bip44FirstAddress(Slip44CoinType(n).value))
              && ParsePath(DerivationPaths[n]) == Some(Bip44FirstAddress(Slip44CoinType(n).value))
              && IsBip44(ParsePath(DerivationPaths[n]).value, Slip44CoinType(n).value)
  {
    if n in DerivationPaths {
      var levels := Bip44FirstAddress(Slip44CoinType(n).value);
      assert DerivationPaths[n] == RenderPath(levels) by {
        if n == Trx { TronPathIsBip44(); } else { EvmPathIsBip44(); }
      }
      ParseRenderPath(levels);
    }
  }

  function UnsupportedNetwork(n: Network): (e: Error)
    ensures e.name == "Error"
    ensures HasPrefix(e.message, "Unsupported network: ") && e.message[21..] == Name(n)
  {
    PlainError("Unsupported network: " + Name(n))
  }

  /** Looks the network up in the table; a missing (or empty) entry throws. */
  function GetDerivationPath(n: Network): (r: Result<string, Error>)
    ensures r.Success? <==> n in DerivationPaths
    ensures r.Success? <==> Slip44CoinType(n).Some?
    ensures r.Success? ==> ParsePath(r.value) == Some(Bip44FirstAddress(Slip44CoinType(n).value))
    ensures r.Success? ==> r.value == DerivationPaths[n] == RenderPath(Bip44FirstAddress(Slip44CoinType(n).value))
    ensures r.Failure? ==> r.error == UnsupportedNetwork(n)
  {
    DerivationPathsFollowBip44(n);
    if n !in DerivationPaths || DerivationPaths[n] == "" then Failure(UnsupportedNetwork(n))
    else Success(DerivationPaths[n])
  }

  /** Drops the uncompressed-point marker "04" from the front of a hex public key. */
  function StripUncompressedPrefix(publicKey: string): (r: string)
    ensures HasPrefix(publicKey, "04") ==> |r| == |publicKey| - 2 && "04" + r == publicKey
    ensures !HasPrefix(publicKey, "04") ==> r == publicKey
  {
    if HasPrefix(publicKey, "04") then publicKey[2..] else publicKey
  }

  /** `0x` followed by 40 lower-case hex digits. */
  predicate IsEthereumStyleAddress(a: string) {
    |a| == 42 && a[..2] == "0x" && IsLowerHex(a[2..])
  }

  /** The Ethereum-style address of a hex public key. */
  function EthereumStyleAddress(lib: Primitives, publicKey: string): (a: string)
    ensures IsEthereumStyleAddress(a)
    ensures HexDecode(a[2..]) == lib.keccak256(HexDecode(StripUncompressedPrefix(publicKey)))[12..]
  {
    var hash := lib.keccak256(HexDecode(StripUncompressedPrefix(publicKey)));
    var payload := Slice(hash, -20, |hash|);
    HexDecodeOfEncode(payload);
    "0x" + HexEncode(payload)
  }

  /** The Tron address of a hex public key. */
  function TronAddress(lib: Primitives, publicKey: string): (t: string)
    ensures exists eth :: && IsEthereumStyleAddress(eth)
                          && HexDecode(eth[2..]) == lib.keccak256(HexDecode(StripUncompressedPrefix(publicKey)))[12..]
                          && t == lib.tronFromHex(eth)
  {
    var eth := EthereumStyleAddress(lib, publicKey);
    assert IsEthereumStyleAddress(eth);
    lib.tronFromHex(eth)
  }

  /** Two public keys with the same Ethereum-style address have the same Tron
      address: the Tron encoder sees the key only through that address. */
  lemma TronAddressFactorsThroughEthereumAddress(lib: Primitives, pk1: string, pk2: string)
    requires EthereumStyleAddress(lib, pk1) == EthereumStyleAddress(lib, pk2)
    ensures TronAddress(lib, pk1) == TronAddress(lib, pk2)
  {
  }

  /** A key body that does not itself start with "04" gives the same addresses
      with or without the "04" marker. */
  lemma AddressIgnoresUncompressedPrefix(lib: Primitives, body: string)
    requires !HasPrefix(body, "04")
    ensures EthereumStyleAddress(lib, "04" + body) == EthereumStyleAddress(lib, body)
    ensures TronAddress(lib, "04" + body) == TronAddress(lib, body)
  {
    assert HasPrefix("04" + body, "04");
    assert ("04" + body)[2..] == body;
  }

  /** The marker test looks only at the first two digits, not at the length:
      a raw 64-byte key (128 digits, no marker) whose first byte is 0x04 loses
      that byte, and at most 63 bytes are hashed. */
  lemma RawKeyStartingWith04IsShortened(rawKey: string)
    requires |rawKey| == 128 && HasPrefix(rawKey, "04")
    ensures |StripUncompressedPrefix(rawKey)| == 126
    ensures |HexDecode(StripUncompressedPrefix(rawKey))| <= 63
  {
  }

  /** Selects the address encoder of the network; `Base` has none and throws. */
  function AddressFromPublicKey(lib: Primitives, publicKey: string, network: Network): (r: Result<string, Error>)
    ensures r.Success? <==> network in DerivationPaths
    ensures r.Failure? ==> r.error == UnsupportedNetwork(network)
    ensures r.Success? && network != Trx ==> r.value == EthereumStyleAddress(lib, publicKey)
    ensures r.Success? && network == Trx ==> r.value == TronAddress(lib, publicKey)
  {
    match network
    case Eth | Bsc | Atc | Xbn | Matic => Success(EthereumStyleAddress(lib, publicKey))
    case Trx => Success(TronAddress(lib, publicKey))
    case Base => Failure(UnsupportedNetwork(network))
  }

  /** The private key, in lower-case hex, derived from the mnemonic's seed along
      the network's path. The seed is computed before the path lookup, which
      throws for a network with no path. */
  function GetPrivateKeyFromMnemonic(lib: Primitives, mnemonic: string, network: Network): (r: Result<string, Error>)
    ensures r.Success? <==> network in DerivationPaths
    ensures r.Failure? ==> r.error == UnsupportedNetwork(network)
    ensures r.Success? ==> IsLowerHex(r.value) && |r.value| % 2 == 0
    ensures r.Success? ==>
              HexDecode(r.value) == lib.derivePrivateKey(
                lib.mnemonicToSeed(mnemonic),
                RenderPath(Bip44FirstAddress(Slip44CoinType(network).value)))
  {
    var seed := lib.mnemonicToSeed(mnemonic);
    var path :- GetDerivationPath(network);
    DerivationPathsFollowBip44(network);
    var key := lib.derivePrivateKey(seed, path);
    HexDecodeOfEncode(key);
    Success(HexEncode(key))
  }

  /** A wallet for `network` from `mnemonic`. */
  function GenerateWalletFromMnemonic(lib: Primitives, mnemonic: string, network: Network)
    : (r: Result<GeneratedWalletAddress, Error>)
    ensures r.Success? <==> network in DerivationPaths
    ensures r.Failure? ==> r.error == UnsupportedNetwork(network)
    ensures r.Success? ==> r.value.mnemonic == mnemonic && r.value.network == network
    ensures r.Success? ==> GetPrivateKeyFromMnemonic(lib, mnemonic, network) == Success(r.value.privateKey)
    ensures r.Success? ==>
              AddressFromPublicKey(lib, lib.publicKeyHex(r.value.privateKey), network) == Success(r.value.address)
    ensures r.Success? && network != Trx ==> IsEthereumStyleAddress(r.value.address)
  {
    var privateKey :- GetPrivateKeyFromMnemonic(lib, mnemonic, network);
    var publicKey := lib.publicKeyHex(privateKey);
    match AddressFromPublicKey(lib, publicKey, network)
    case Failure(e) => Failure(e)
    case Success(address) => Success(GeneratedWalletAddress(mnemonic, address, network, privateKey))
  }

  /** A wallet for `network` from a fresh mnemonic of 128 bits of entropy (the
      `Entropy` type holds exactly `MnemonicEntropyBits / 8` bytes). */
  function GenerateWalletWithMnemonic(lib: Primitives, entropy: Entropy, network: Network)
    : (r: Result<GeneratedWalletAddress, Error>)
    ensures r == GenerateWalletFromMnemonic(lib, lib.entropyToMnemonic(entropy), network)
    ensures r.Success? ==>
              GetPrivateKeyFromMnemonic(lib, lib.entropyToMnemonic(entropy), network) == Success(r.value.privateKey)
    ensures r.Success? <==> network in DerivationPaths
    ensures r.Failure? ==> r.error == UnsupportedNetwork(network)
    ensures r.Success? ==> r.value.mnemonic == lib.entropyToMnemonic(entropy) && r.value.network == network
    ensures r.Success? ==>
              AddressFromPublicKey(lib, lib.publicKeyHex(r.value.privateKey), network) == Success(r.value.address)
  {
    var mnemonic := lib.entropyToMnemonic(entropy);
    GenerateWalletFromMnemonic(lib, mnemonic, network)
  }

  /** For a network with no path, generation fails with the private-key step's
      error whatever the key, hash and address primitives are: it stops before
      any public key or address is computed. */
  lemma UnsupportedNetworkFailsInPrivateKeyStep(lib1: Primitives, lib2: Primitives, mnemonic: string, network: Network)
    requires network !in DerivationPaths
    ensures GenerateWalletFromMnemonic(lib1, mnemonic, network) == GetPrivateKeyFromMnemonic(lib2, mnemonic, network).PropagateFailure()
    ensures GenerateWalletFromMnemonic(lib1, mnemonic, network) == Failure(PlainError("Unsupported network: " + Name(network)))
  {
  }

  /** The wallet depends on the mnemonic only through its seed. */
  lemma WalletDependsOnlyOnSeed(lib: Primitives, m1: string, m2: string, network: Network)
    requires lib.mnemonicToSeed(m1) == lib.mnemonicToSeed(m2)
    ensures var r1, r2 := GenerateWalletFromMnemonic(lib, m1, network), GenerateWalletFromMnemonic(lib, m2, network);
            r1.Success? == r2.Success? && (r1.Success? ==> r1.value.(mnemonic := m2) == r2.value)
  {
  }

  /** The five Ethereum-compatible networks share the path and the encoder, so
      one mnemonic gives all of them the same private key and address. */
  lemma EvmNetworksShareWallet(lib: Primitives, mnemonic: string, n1: Network, n2: Network)
    requires n1 in DerivationPaths && n1 != Trx
    requires n2 in DerivationPaths && n2 != Trx
    ensures var r1, r2 := GenerateWalletFromMnemonic(lib, mnemonic, n1), GenerateWalletFromMnemonic(lib, mnemonic, n2);
            r1.Success? && r2.Success? && r1.value.privateKey == r2.value.privateKey && r1.value.address == r2.value.address
  {
    assert GetDerivationPath(n1) == Success(EvmPath) == GetDerivationPath(n2);
    var key := GetPrivateKeyFromMnemonic(lib, mnemonic, n1);
    assert key == GetPrivateKeyFromMnemonic(lib, mnemonic, n2);
    var publicKey := lib.publicKeyHex(key.value);
    assert AddressFromPublicKey(lib, publicKey, n1) == AddressFromPublicKey(lib, publicKey, n2);
  }
}

=== FILE: decimal.dfy ===
/** Decimal rendering of integers, as JavaScript prints a whole number in a
    template literal, and the digit-string reading a BIP-32 path parser uses. */
module Decimal {

  predicate IsDigit(c: char) {
    '0' <= c <= '9'
  }

  predicate AllDigits(s: string) {
    forall i :: 0 <= i < |s| ==> IsDigit(s[i])
  }

  function DigitChar(d: nat): (c: char)
    requires d < 10
    ensures IsDigit(c)
    ensures DigitValue(c) == d
  {
    ('0' as int + d) as char
  }

  function DigitValue(c: char): nat
    requires IsDigit(c)
  {
    c as int - '0' as int
  }

  /** The shortest decimal numeral of `n`: no sign and no leading zero. */
  function NatToString(n: nat): (s: string)
    ensures 1 <= |s|
    ensures AllDigits(s)
    ensures |s| > 1 ==> s[0] != '0'
  {
    if n < 10 then [DigitChar(n)] else NatToString(n / 10) + [DigitChar(n % 10)]
  }

  /** The value of a string of decimal digits, read left to right. */
  function DigitsValue(s: string): nat
    requires AllDigits(s)
  {
    if |s| == 0 then 0 else 10 * DigitsValue(s[..|s| - 1]) + DigitValue(s[|s| - 1])
  }

  /** Reading back a rendered numeral gives the number again. */
  lemma {:induction false} DigitsValueOfNatToString(n: nat)
    ensures DigitsValue(NatToString(n)) == n
  {
    var s := NatToString(n);
    if n >= 10 {
      DigitsValueOfNatToString(n / 10);
      assert s[..|s| - 1] == NatToString(n / 10);
    }
  }

  /** `${i}` for a whole JavaScript number `i` of magnitude below 10^21 (above
      that JavaScript switches to exponent notation): digits that read back as
      |i|, a leading '-' exactly when `i` is negative, and no leading zero. */
  function IntToString(i: int): (s: string)
    ensures i >= 0 ==> AllDigits(s) && DigitsValue(s) == i
    ensures i < 0 ==> |s| >= 2 && s[0] == '-' && AllDigits(s[1..]) && DigitsValue(s[1..]) == -i
    ensures i < 0 ==> s[1] != '0'
    ensures 1 <= |s| && (s[0] == '0' ==> s == "0")
  {
    if i < 0 then
      var digits := NatToString(-i);
      DigitsValueOfNatToString(-i);
      assert ("-" + digits)[1..] == digits;
      "-" + digits
    else
      DigitsValueOfNatToString(i);
      NatToString(i)
  }
}

=== FILE: derivation_path.dfy ===
/** BIP-32 path notation (`m/44'/60'/0'/0/0`): a lower-case `m` root followed
    by `/index` or `/index'` levels, and the five-level shape BIP-44 gives such
    paths (purpose / coin type / account / change / address index). Indices are
    unbounded here; the 2^31 limit of a real derivation is not modelled. */
module DerivationPath {
  import opened Wrappers
  import opened Decimal

  /** One path level: a child index, hardened when written with a trailing `'`. */
  datatype Level = Level(index: nat, hardened: bool)

  function RenderLevel(l: Level): (s: string)
  {
    "/" + NatToString(l.index) + (if l.hardened then "'" else "")
  }

  function RenderLevels(levels: seq<Level>): string
  {
    if |levels| == 0 then "" else RenderLevel(levels[0]) + RenderLevels(levels[1..])
  }

  /** The textual form of a path: `m` followed by `/index` or `/index'` per level. */
  function RenderPath(levels: seq<Level>): string
  {
    "m" + RenderLevels(levels)
  }

  /** The length of the run of decimal digits at the front of `s`. */
  function DigitRunLength(s: string): (n: nat)
    ensures n <= |s|
    ensures AllDigits(s[..n])
    ensures n < |s| ==> !IsDigit(s[n])
  {
    if |s| == 0 || !IsDigit(s[0]) then 0
    else
      var n := 1 + DigitRunLength(s[1..]);
      assert s[..n] == [s[0]] + s[1..][..n - 1];
      n
  }

  /** Reads one `/index` or `/index'` level from the front of `s`, with what follows it. */
  function ParseLevel(s: string): (r: Option<(Level, string)>)
    ensures r.Some? ==> |r.value.1| < |s|
  {
    if |s| == 0 || s[0] != '/' then None
    else
      var n := DigitRunLength(s[1..]);
      if n == 0 then None
      else
        var rest := s[1 + n..];
        var hardened := |rest| > 0 && rest[0] == '\'';
        assert s[1..1 + n] == s[1..][..n];
        Some((Level(DigitsValue(s[1..1 + n]), hardened), if hardened then rest[1..] else rest))
  }

  function ParseLevels(s: string): Option<seq<Level>>
    decreases |s|
  {
    if |s| == 0 then Some([])
    else
      match ParseLevel(s)
      case None => None
      case Some((l, rest)) =>
        match ParseLevels(rest)
        case None => None
        case Some(tail) => Some([l] + tail)
  }

  /** Reads a path written in BIP-32 notation; `None` when it is malformed. */
  function ParsePath(s: string): Option<seq<Level>>
  {
    if |s| >= 1 && s[0] == 'm' then ParseLevels(s[1..]) else None
  }

  lemma {:induction false} DigitRunOfNumeral(d: string, t: string)
    requires AllDigits(d)
    requires |t| == 0 || !IsDigit(t[0])
    ensures DigitRunLength(d + t) == |d|
    decreases |d|
  {
    if |d| == 0 {
      assert d + t == t;
    } else {
      assert (d + t)[0] == d[0];
      assert IsDigit(d[0]);
      assert (d + t)[1..] == d[1..] + t;
      assert AllDigits(d[1..]) by {
        forall i | 0 <= i < |d| - 1 ensures IsDigit(d[1..][i]) {
          assert d[1..][i] == d[i + 1];
        }
      }
      DigitRunOfNumeral(d[1..], t);
    }
  }

  lemma {:induction false} RenderLevelsStartsWithSlash(levels: seq<Level>)
    ensures |RenderLevels(levels)| == 0 <==> |levels| == 0
    ensures |levels| > 0 ==> RenderLevels(levels)[0] == '/'
  {
  }

  /** Parsing one rendered level in front of a rendered remainder. */
  lemma ParseRenderedLevel(l: Level, r: string)
    requires |r| == 0 || r[0] == '/'
    ensures ParseLevel(RenderLevel(l) + r) == Some((l, r))
  {
    var d := NatToString(l.index);
    var h := if l.hardened then "'" else "";
    var s := RenderLevel(l) + r;
    assert s == "/" + (d + (h + r));
    assert s[1..] == d + (h + r);
    DigitRunOfNumeral(d, h + r);
    var n := |d|;
    assert s[1..1 + n] == d;
    DigitsValueOfNatToString(l.index);
    var rest := s[1 + n..];
    assert rest == h + r;
    assert (|rest| > 0 && rest[0] == '\'') == l.hardened;
    assert (if l.hardened then rest[1..] else rest) == r;
  }

  /** Parsing a rendered list of levels gives back the levels. */
  lemma {:induction false} ParseRenderLevels(levels: seq<Level>)
    ensures ParseLevels(RenderLevels(levels)) == Some(levels)
  {
    if |levels| > 0 {
      RenderLevelsStartsWithSlash(levels[1..]);
      ParseRenderedLevel(levels[0], RenderLevels(levels[1..]));
      assert RenderLevels(levels) == RenderLevel(levels[0]) + RenderLevels(levels[1..]);
      ParseRenderLevels(levels[1..]);
      assert [levels[0]] + levels[1..] == levels;
    }
  }

  /** Parsing a rendered path gives back its levels. */
  lemma ParseRenderPath(levels: seq<Level>)
    ensures ParsePath(RenderPath(levels)) == Some(levels)
  {
    assert RenderPath(levels)[1..] == RenderLevels(levels);
    ParseRenderLevels(levels);
  }

  /** The BIP-44 path of the first external address of account 0 for a
      SLIP-0044 coin type: `m/44'/coin'/0'/0/0`. */
  function Bip44FirstAddress(coinType: nat): (levels: seq<Level>)
    ensures IsBip44(levels, coinType)
  {
    [Level(44, true), Level(coinType, true), Level(0, true), Level(0, false), Level(0, false)]
  }

  /** The textual form of the BIP-44 path of a coin type. */
  lemma RenderBip44FirstAddress(coinType: nat)
    ensures RenderPath(Bip44FirstAddress(coinType)) == "m/44'/" + NatToString(coinType) + "'/0'/0/0"
  {
    var levels := Bip44FirstAddress(coinType);
    var coin := NatToString(coinType);
    var tail := RenderLevels(levels[2..]);
    assert tail == "/0'/0/0" by {
      RenderTrailingZeros(levels[2..]);
    }
    assert levels[1..][1..] == levels[2..];
    assert RenderLevels(levels[1..]) == RenderLevel(levels[1]) + tail;
    assert RenderLevel(levels[1]) == "/" + coin + "'";
    assert RenderLevel(levels[0]) == "/44'" by {
      assert NatToString(4) == "4";
      assert NatToString(44) == "44";
    }
    assert RenderLevels(levels) == "/44'" + ("/" + coin + "'" + tail);
    Bip44Concatenation(coin);
  }

  lemma Bip44Concatenation(coin: string)
    ensures "m" + ("/44'" + ("/" + coin + "'" + "/0'/0/0")) == "m/44'/" + coin + "'/0'/0/0"
  {
    var lhs := "m" + ("/44'" + ("/" + coin + "'" + "/0'/0/0"));
    var rhs := "m/44'/" + coin + "'/0'/0/0";
    assert |lhs| == |rhs|;
    forall i | 0 <= i < |lhs| ensures lhs[i] == rhs[i] {
      if i < 6 {
      } else if i < 6 + |coin| {
        assert lhs[i] == coin[i - 6];
      } else {
      }
    }
  }

  /** The last three BIP-44 levels, account 0' / change 0 / index 0, render as `/0'/0/0`. */
  lemma RenderTrailingZeros(levels: seq<Level>)
    requires levels == [Level(0, true), Level(0, false), Level(0, false)]
    ensures RenderLevels(levels) == "/0'/0/0"
  {
    assert NatToString(0) == "0";
    assert RenderLevel(Level(0, false)) == "/0";
    assert RenderLevel(Level(0, true)) == "/0'";
    assert levels[1..][1..] == levels[2..];
    assert levels[2..][1..] == [];
    assert RenderLevels(levels[2..]) == "/0";
    assert RenderLevels(levels[1..]) == "/0" + "/0";
  }

  /** Five levels: purpose 44, the coin type and account 0 hardened; change 0
      and address index 0 not hardened. */
  predicate IsBip44(levels: seq<Level>, coinType: nat) {
    && |levels| == 5
    && levels[0] == Level(44, true)
    && levels[1] == Level(coinType, true)
    && levels[2] == Level(0, true)
    && levels[3] == Level(0, false)
    && levels[4] == Level(0, false)
  }
}

=== FILE: ed25519_box.dfy ===
/** Opening the response envelope (`Ed25519Crypto`): the Ed25519 secret key is
    cut out of an OpenSSH private-key file by searching for the SSH `string`
    length prefix `00 00 00 40` (the uint32 64 of section 5 of RFC 4251), and
    the base64 envelope is split into nonce, ciphertext and ephemeral public
    key for libsodium's `crypto_box_open_easy`.

    libsodium and the base64 decoder are not modelled; they are the fields of
    `Sodium`, passed in as parameters. */
module Ed25519Box {
  import opened Wrappers
  import opened Js
  import opened NodeBuffer

  /** The uint32 length 64 that precedes the 64-byte Ed25519 secret key. */
  const KeyLengthMarker: seq<uint8> := [0x00, 0x00, 0x00, 0x40]

  /** The number of bytes taken after the marker. */
  const SecretKeyBytes: nat := 64

  /** libsodium's `crypto_box_NONCEBYTES`. */
  const NonceBytes: nat := 24

  /** libsodium's `crypto_box_PUBLICKEYBYTES`. */
  const PublicKeyBytes: nat := 32

  const KeyNotFoundMessage: string := "Unable to find Ed25519 key data"

  const DecryptFailurePrefix: string := "Failed to decrypt with the provided Ed25519 private key: "

  /** The library functions the decryption calls.
      - base64Decode: `Buffer.from(s, 'base64')`
      - skToCurve25519: `crypto_sign_ed25519_sk_to_curve25519`
      - boxOpenEasy: `crypto_box_open_easy(ciphertext, nonce, publicKey, secretKey)`
      - toUtf8String: `sodium.to_string` */
  datatype Sodium = Sodium(
    base64Decode: string -> seq<uint8>,
    skToCurve25519: seq<uint8> -> Result<seq<uint8>, Error>,
    boxOpenEasy: (seq<uint8>, seq<uint8>, seq<uint8>, seq<uint8>) -> Result<seq<uint8>, Error>,
    toUtf8String: seq<uint8> -> Result<string, Error>)

  function Min(a: int, b: int): int { if a <= b then a else b }

  function Max(a: int, b: int): int { if a >= b then a else b }

  /** The base64 text of a key file: every line but the first and the last,
      run together. */
  function Base64Body(pem: string): (body: string)
    ensures forall i :: 0 <= i < |body| ==> body[i] != '\n'
  {
    var lines := Split(pem, '\n');
    var inner := Slice(lines, 1, -1);
    assert NoSeparator(inner, '\n') by {
      forall i, j | 0 <= i < |inner| && 0 <= j < |inner[i]| ensures inner[i][j] != '\n' {
        assert inner[i] == lines[i + 1];
      }
    }
    JoinKeepsOut(inner, '\n');
    Join(inner, "")
  }

  lemma {:induction false} JoinKeepsOut(parts: seq<string>, c: char)
    requires NoSeparator(parts, c)
    ensures forall i :: 0 <= i < |Join(parts, "")| ==> Join(parts, "")[i] != c
  {
    if |parts| > 1 {
      var tail := parts[1..];
      assert NoSeparator(tail, c) by {
        forall i, j | 0 <= i < |tail| && 0 <= j < |tail[i]| ensures tail[i][j] != c {
          assert tail[i] == parts[i + 1];
        }
      }
      JoinKeepsOut(tail, c);
      assert Join(parts, "") == parts[0] + Join(tail, "");
      forall i | 0 <= i < |Join(parts, "")| ensures Join(parts, "")[i] != c {
        if i >= |parts[0]| {
          assert Join(parts, "")[i] == Join(tail, "")[i - |parts[0]|];
        }
      }
    }
  }

  /** For a key file whose lines are `lines`, the base64 body is every line
      strictly between the first and the last, concatenated. */
  lemma Base64BodyOfLines(lines: seq<string>)
    requires |lines| >= 2
    requires NoSeparator(lines, '\n')
    ensures Base64Body(Join(lines, "\n")) == Join(lines[1..|lines| - 1], "")
  {
    SplitJoin(lines, '\n');
  }

  /** When the file ends with a newline the last element of the split is the
      empty string, so the footer line is part of the base64 body. */
  lemma Base64BodyKeepsFooterAfterFinalNewline(lines: seq<string>)
    requires |lines| >= 2
    requires NoSeparator(lines, '\n')
    ensures Base64Body(Join(lines, "\n") + "\n") == Join(lines[1..], "")
  {
    var withEmpty := lines + [""];
    assert Join(withEmpty, "\n") == Join(lines, "\n") + "\n" by {
      JoinAppend(lines, "", "\n");
    }
    assert NoSeparator(withEmpty, '\n') by {
      forall i, j | 0 <= i < |withEmpty| && 0 <= j < |withEmpty[i]| ensures withEmpty[i][j] != '\n' {
        assert withEmpty[i] == lines[i];
      }
    }
    Base64BodyOfLines(withEmpty);
    assert withEmpty[1..|withEmpty| - 1] == lines[1..];
  }

  lemma {:induction false} JoinAppend(parts: seq<string>, last: string, sep: string)
    requires |parts| >= 1
    ensures Join(parts + [last], sep) == Join(parts, sep) + sep + last
  {
    if |parts| == 1 {
      assert parts + [last] == [parts[0], last];
      assert [parts[0], last][1..] == [last];
    } else {
      JoinAppend(parts[1..], last, sep);
      assert (parts + [last])[1..] == parts[1..] + [last];
    }
  }

  /** `k` is where `needle` first occurs in `hay`. */
  predicate FirstOccurrence<T(==)>(hay: seq<T>, needle: seq<T>, k: int) {
    OccursAt(hay, needle, k) && forall j :: 0 <= j < k ==> !OccursAt(hay, needle, j)
  }

  /** The Ed25519 secret key of an OpenSSH private-key file: the (up to) 64
      bytes after the first `00 00 00 40` in the decoded body. */
  function ParseOpenSSHPrivateKey(sodium: Sodium, pem: string): (r: Result<seq<uint8>, Error>)
    ensures var buffer := sodium.base64Decode(Base64Body(pem));
            r.Failure? <==> forall k :: 0 <= k <= |buffer| ==> !OccursAt(buffer, KeyLengthMarker, k)
    ensures r.Failure? ==> r.error == PlainError(KeyNotFoundMessage)
    ensures r.Success? ==> |r.value| <= SecretKeyBytes
    ensures r.Success? ==>
              var buffer := sodium.base64Decode(Base64Body(pem));
              exists k :: && FirstOccurrence(buffer, KeyLengthMarker, k)
                          && r.value == buffer[k + 4..Min(k + 4 + SecretKeyBytes, |buffer|)]
                          && (k + 4 + SecretKeyBytes <= |buffer| ==> |r.value| == SecretKeyBytes)
  {
    var buffer := sodium.base64Decode(Base64Body(pem));
    var start := IndexOf(buffer, KeyLengthMarker);
    if start == -1 then Failure(PlainError(KeyNotFoundMessage))
    else
      var key := Slice(buffer, start + 4, start + 68);
      assert FirstOccurrence(buffer, KeyLengthMarker, start);
      assert key == buffer[start + 4..Min(start + 4 + SecretKeyBytes, |buffer|)];
      Success(key)
  }

  /** The three parts of an encrypted payload. */
  datatype Envelope = Envelope(nonce: seq<uint8>, ciphertext: seq<uint8>, ephemeralPublicKey: seq<uint8>)

  /** `subarray(0, N)`, `subarray(N, -P)` and `subarray(-P)` of the decoded payload. */
  function SplitEnvelope(buffer: seq<uint8>): (e: Envelope)
    ensures e.nonce == buffer[..Min(NonceBytes, |buffer|)]
    ensures e.ephemeralPublicKey == buffer[Max(|buffer| - PublicKeyBytes, 0)..]
    ensures |buffer| >= NonceBytes + PublicKeyBytes ==>
              && |e.nonce| == NonceBytes
              && |e.ephemeralPublicKey| == PublicKeyBytes
              && e.nonce + e.ciphertext + e.ephemeralPublicKey == buffer
    ensures |buffer| < NonceBytes + PublicKeyBytes ==> e.ciphertext == []
  {
    var e := Envelope(
      Slice(buffer, 0, NonceBytes),
      Slice(buffer, NonceBytes, -(PublicKeyBytes as int)),
      Slice(buffer, -(PublicKeyBytes as int), |buffer|));
    assert |buffer| >= NonceBytes + PublicKeyBytes ==> e.nonce + e.ciphertext + e.ephemeralPublicKey == buffer by {
      if |buffer| >= NonceBytes + PublicKeyBytes {
        var n := NonceBytes;
        var m := |buffer| - PublicKeyBytes;
        assert buffer == buffer[..n] + buffer[n..m] + buffer[m..];
      }
    }
    e
  }

  /** The steps inside the `try`: any of them may throw. */
  function OpenEnvelope(sodium: Sodium, privateKeyPem: string, encryptedData: string): (r: Result<string, Error>)
    ensures ParseOpenSSHPrivateKey(sodium, privateKeyPem).Failure? ==>
              r == Failure(PlainError(KeyNotFoundMessage))
    ensures r.Success? ==> ParseOpenSSHPrivateKey(sodium, privateKeyPem).Success?
  {
    var fullKey :- ParseOpenSSHPrivateKey(sodium, privateKeyPem);
    var curveKey :- sodium.skToCurve25519(fullKey);
    var envelope := SplitEnvelope(sodium.base64Decode(encryptedData));
    var plain :- sodium.boxOpenEasy(envelope.ciphertext, envelope.nonce, envelope.ephemeralPublicKey, curveKey);
    sodium.toUtf8String(plain)
  }

  /** Decrypts a response payload; every failure is rethrown as a plain
      `Error` whose message is the fixed prefix followed by `${error}`. */
  function DecryptWithPrivateKey(sodium: Sodium, privateKeyPem: string, encryptedData: string): (r: Result<string, Error>)
    ensures r.Failure? ==> r.error.name == "Error" && HasPrefix(r.error.message, DecryptFailurePrefix)
    ensures r.Failure? <==> OpenEnvelope(sodium, privateKeyPem, encryptedData).Failure?
    ensures ParseOpenSSHPrivateKey(sodium, privateKeyPem).Failure? ==>
              r == Failure(PlainError(DecryptFailurePrefix + "Error: " + KeyNotFoundMessage))
    ensures r.Success? ==> ParseOpenSSHPrivateKey(sodium, privateKeyPem).Success?
    ensures r.Success? ==> r == OpenEnvelope(sodium, privateKeyPem, encryptedData)
    ensures r.Failure? ==>
              r.error.message == DecryptFailurePrefix + ErrorToString(OpenEnvelope(sodium, privateKeyPem, encryptedData).error)
  {
    PlainErrorToString(KeyNotFoundMessage);
    match OpenEnvelope(sodium, privateKeyPem, encryptedData)
    case Success(text) => Success(text)
    case Failure(e) =>
      assert ParseOpenSSHPrivateKey(sodium, privateKeyPem).Failure? ==>
               DecryptFailurePrefix + ErrorToString(e) == DecryptFailurePrefix + "Error: " + KeyNotFoundMessage;
      Failure(PlainError(DecryptFailurePrefix + ErrorToString(e)))
  }
}

=== FILE: js.dfy ===
/** The fragment of JavaScript semantics the library's logic leans on:
    values and their truthiness, template-literal string conversion, thrown
    `Error` objects, property reads, `slice`/`subarray` index clamping and
    `String.prototype.split`/`Array.prototype.join`. */
module Js {
  import opened Wrappers
  import Decimal

  /** A JavaScript value. Numbers are restricted to whole numbers. */
  datatype Value =
    | Undefined
    | Null
    | Bool(b: bool)
    | Number(n: int)
    | Str(s: string)
    | Array(items: seq<Value>)
    | Object(fields: map<string, Value>)

  /** JavaScript truthiness: `undefined`, `null`, `false`, `0` and `""` are falsy. */
  predicate Truthy(v: Value) {
    match v
    case Undefined => false
    case Null => false
    case Bool(b) => b
    case Number(n) => n != 0
    case Str(s) => s != ""
    case Array(_) => true
    case Object(_) => true
  }

  /** The falsy values of section 7.1.2 (ToBoolean) of ECMA-262, restricted to
      whole numbers: every other value is truthy. */
  const FalsyValues: set<Value> := {Undefined, Null, Bool(false), Number(0), Str("")}

  /** Truthiness is exactly "not one of the five falsy values". */
  lemma TruthyIsNotFalsy(v: Value)
    ensures Truthy(v) <==> v !in FalsyValues
  {
  }

  /** A thrown error object: its `name` ("Error", "TypeError", ...) and `message`. */
  datatype Error = Error(name: string, message: string)

  /** `new Error(message)`. */
  function PlainError(message: string): (e: Error)
    ensures e.name == "Error" && e.message == message
  {
    Error("Error", message)
  }

  /** `Error.prototype.toString`, which is what `${error}` produces. */
  function ErrorToString(e: Error): (s: string)
    ensures HasPrefix(s, e.name)
    ensures |e.message| <= |s| && s[|s| - |e.message|..] == e.message
    ensures e.name != "" && e.message != "" ==>
              |s| == |e.name| + 2 + |e.message| && s[|e.name|..|e.name| + 2] == ": "
  {
    if e.name == "" then e.message
    else if e.message == "" then e.name
    else e.name + ": " + e.message
  }

  /** `${new Error(m)}` for a non-empty `m` is "Error: " followed by `m`, so
      the message can be read back after the fixed seven characters. */
  lemma PlainErrorToString(m: string)
    requires m != ""
    ensures ErrorToString(PlainError(m)) == "Error: " + m
    ensures |ErrorToString(PlainError(m))| == 7 + |m| && ErrorToString(PlainError(m))[7..] == m
  {
  }

  predicate HasPrefix(s: string, prefix: string) {
    |prefix| <= |s| && s[..|prefix|] == prefix
  }

  /** `parts.join(sep)`. */
  function Join(parts: seq<string>, sep: string): (r: string)
    ensures |parts| >= 1 ==> |r| == TotalLength(parts) + (|parts| - 1) * |sep|
    ensures |parts| >= 1 ==> HasPrefix(r, parts[0])
  {
    if |parts| == 0 then ""
    else if |parts| == 1 then parts[0]
    else parts[0] + sep + Join(parts[1..], sep)
  }

  /** The summed lengths of the pieces. */
  function TotalLength(parts: seq<string>): nat
  {
    if |parts| == 0 then 0 else |parts[0]| + TotalLength(parts[1..])
  }

  /** `${v}`: the string a template literal substitutes for `v`. Inside an
      array, `undefined` and `null` elements print as the empty string. */
  function ToString(v: Value): (s: string)
    ensures v.Str? ==> s == v.s
    ensures v == Undefined ==> s == "undefined"
    ensures v.Number? && v.n >= 0 ==> Decimal.AllDigits(s) && Decimal.DigitsValue(s) == v.n
  {
    match v
    case Undefined => "undefined"
    case Null => "null"
    case Bool(b) => if b then "true" else "false"
    case Number(n) => Decimal.IntToString(n)
    case Str(s) => s
    case Array(items) =>
      Join(seq(|items|, i requires 0 <= i < |items| =>
        if items[i].Undefined? || items[i].Null? then "" else ToString(items[i])), ",")
    case Object(_) => "[object Object]"
  }

  /** The `TypeError` V8 throws when reading property `key` of `undefined` or `null`. */
  function PropertyReadError(v: Value, key: string): (e: Error)
    requires v.Undefined? || v.Null?
    ensures e.name == "TypeError"
    ensures HasPrefix(e.message, "Cannot read properties of ")
    ensures |e.message| >= |key| + 2 && e.message[|e.message| - |key| - 2..] == key + "')"
  {
    Error("TypeError", "Cannot read properties of " + ToString(v) + " (reading '" + key + "')")
  }

  /** `v[key]` for a key that is at most an own field of a plain object, as
      `data` and `message` are: a missing key reads as `undefined`; a read from
      `undefined` or `null` throws. Built-in properties such as a string's
      `length` are not modelled and read as `undefined` here. */
  function Get(v: Value, key: string): (r: Result<Value, Error>)
    ensures r.Failure? <==> v.Undefined? || v.Null?
    ensures r.Failure? ==> r.error.name == "TypeError"
    ensures r.Success? && r.value != Undefined ==> v.Object? && key in v.fields && v.fields[key] == r.value
    ensures v.Object? ==> r == Success(if key in v.fields then v.fields[key] else Undefined)
  {
    match v
    case Undefined => Failure(PropertyReadError(v, key))
    case Null => Failure(PropertyReadError(v, key))
    case Object(fields) => Success(if key in fields then fields[key] else Undefined)
    case _ => Success(Undefined)
  }

  /** A relative index as `slice` and `subarray` resolve it against a length:
      a negative index counts from the end, and the result is clamped to
      `[0, len]`. */
  function RelativeIndex(i: int, len: nat): (r: nat)
    ensures r <= len
    ensures 0 <= i <= len ==> r == i
    ensures i < 0 && 0 <= len + i ==> r == len + i
    ensures len + i < 0 ==> r == 0
    ensures i > len ==> r == len
  {
    if i < 0 then (if len + i < 0 then 0 else len + i)
    else if i > len then len
    else i
  }

  /** `s.slice(begin, end)` on an array, and `subarray` on a byte buffer. */
  function Slice<T>(s: seq<T>, begin: int, end: int): (r: seq<T>)
    ensures |r| <= |s|
    ensures RelativeIndex(end, |s|) <= RelativeIndex(begin, |s|) ==> r == []
    ensures RelativeIndex(begin, |s|) < RelativeIndex(end, |s|) ==>
              r == s[RelativeIndex(begin, |s|)..RelativeIndex(end, |s|)]
  {
    var b := RelativeIndex(begin, |s|);
    var e := RelativeIndex(end, |s|);
    if e <= b then [] else s[b..e]
  }

  /** No piece contains the separator character. */
  predicate NoSeparator(parts: seq<string>, sep: char) {
    forall i, j :: 0 <= i < |parts| && 0 <= j < |parts[i]| ==> parts[i][j] != sep
  }

  /** `s.split(sep)` for a one-character separator. */
  function Split(s: string, sep: char): (parts: seq<string>)
    ensures |parts| >= 1
    ensures NoSeparator(parts, sep)
    decreases |s|
  {
    if |s| == 0 then [""]
    else
      var rest := Split(s[1..], sep);
      if s[0] == sep then [""] + rest
      else [[s[0]] + rest[0]] + rest[1..]
  }

  /** Joining the pieces of a split with the separator gives back the string. */
  lemma {:induction false} JoinSplit(s: string, sep: char)
    ensures Join(Split(s, sep), [sep]) == s
    decreases |s|
  {
    if |s| > 0 {
      var rest := Split(s[1..], sep);
      JoinSplit(s[1..], sep);
      if s[0] == sep {
        assert Split(s, sep) == [""] + rest;
        assert ([""] + rest)[1..] == rest;
      } else {
        var parts := Split(s, sep);
        assert parts == [[s[0]] + rest[0]] + rest[1..];
        if |rest| == 1 {
          assert Join(rest, [sep]) == rest[0];
        } else {
          assert Join(rest, [sep]) == rest[0] + [sep] + Join(rest[1..], [sep]);
          assert parts[1..] == rest[1..];
        }
      }
    }
  }

  /** Splitting a join of separator-free pieces gives back the pieces. */
  lemma {:induction false} SplitJoin(parts: seq<string>, sep: char)
    requires |parts| >= 1
    requires NoSeparator(parts, sep)
    ensures Split(Join(parts, [sep]), sep) == parts
    decreases |parts|, |parts[0]|
  {
    var p := parts[0];
    var s := Join(parts, [sep]);
    if |p| == 0 {
      if |parts| > 1 {
        var tail := parts[1..];
        NoSeparatorOfTail(parts, sep);
        SplitJoin(tail, sep);
        assert s == [sep] + Join(tail, [sep]);
        assert s[1..] == Join(tail, [sep]);
      }
    } else {
      var shorter := [p[1..]] + parts[1..];
      NoSeparatorOfShorterHead(parts, sep);
      SplitJoin(shorter, sep);
      JoinOfShorterHead(parts, sep);
      assert p[0] != sep by {
        assert parts[0][0] == p[0];
      }
      var rest := Split(s[1..], sep);
      assert Split(s, sep) == [[s[0]] + rest[0]] + rest[1..];
      assert [s[0]] + p[1..] == p;
      assert rest[1..] == parts[1..];
    }
  }

  lemma NoSeparatorOfTail(parts: seq<string>, sep: char)
    requires |parts| >= 1 && NoSeparator(parts, sep)
    ensures NoSeparator(parts[1..], sep)
  {
    var tail := parts[1..];
    forall i, j | 0 <= i < |tail| && 0 <= j < |tail[i]| ensures tail[i][j] != sep {
      assert tail[i] == parts[i + 1];
    }
  }

  lemma NoSeparatorOfShorterHead(parts: seq<string>, sep: char)
    requires |parts| >= 1 && |parts[0]| >= 1 && NoSeparator(parts, sep)
    ensures NoSeparator([parts[0][1..]] + parts[1..], sep)
  {
    var shorter := [parts[0][1..]] + parts[1..];
    forall i, j | 0 <= i < |shorter| && 0 <= j < |shorter[i]| ensures shorter[i][j] != sep {
      if i == 0 {
        assert shorter[0][j] == parts[0][j + 1];
      } else {
        assert shorter[i] == parts[i];
      }
    }
  }

  /** Dropping the first character of a join whose first piece is not empty
      is the join with that piece shortened by one. */
  lemma JoinOfShorterHead(parts: seq<string>, sep: char)
    requires |parts| >= 1 && |parts[0]| >= 1
    ensures |Join(parts, [sep])| >= 1
    ensures Join(parts, [sep])[0] == parts[0][0]
    ensures Join(parts, [sep])[1..] == Join([parts[0][1..]] + parts[1..], [sep])
  {
    var p := parts[0];
    var shorter := [p[1..]] + parts[1..];
    var s := Join(parts, [sep]);
    if |parts| == 1 {
      assert s == p;
    } else {
      assert s == p + [sep] + Join(parts[1..], [sep]);
      assert Join(shorter, [sep]) == p[1..] + [sep] + Join(shorter[1..], [sep]);
      assert shorter[1..] == parts[1..];
    }
  }
}

=== FILE: networks.dfy ===
/** The `Network` enumeration of the library's shared types, with the string
    value each member carries. */
module Networks {

  datatype Network = Bsc | Atc | Xbn | Eth | Matic | Trx | Base

  /** The enum member's string value, which is what `${network}` prints. */
  function Name(n: Network): (s: string)
    ensures |s| >= 3
    ensures forall i :: 0 <= i < |s| ==> 'a' <= s[i] <= 'z'
  {
    match n
    case Bsc => "bsc"
    case Atc => "atc"
    case Xbn => "xbn"
    case Eth => "eth"
    case Matic => "matic"
    case Trx => "trx"
    case Base => "base"
  }

  /** Distinct members carry distinct string values. */
  lemma NameIsInjective(a: Network, b: Network)
    requires Name(a) == Name(b)
    ensures a == b
  {
  }
}

=== FILE: node_buffer.dfy ===
/** The parts of Node's `Buffer` the library relies on: bytes, the `'hex'`
    encoding in both directions, and `indexOf` for a byte sequence. */
module NodeBuffer {

  newtype uint8 = x: int | 0 <= x < 0x100

  const HexDigits: string := "0123456789abcdef"

  predicate IsHexChar(c: char) {
    '0' <= c <= '9' || 'a' <= c <= 'f' || 'A' <= c <= 'F'
  }

  predicate IsLowerHexChar(c: char) {
    '0' <= c <= '9' || 'a' <= c <= 'f'
  }

  /** Every character is a lower-case hexadecimal digit. */
  predicate IsLowerHex(s: string) {
    forall i :: 0 <= i < |s| ==> IsLowerHexChar(s[i])
  }

  function HexValue(c: char): (v: nat)
    requires IsHexChar(c)
    ensures v < 16
  {
    if '0' <= c <= '9' then c as int - '0' as int
    else if 'a' <= c <= 'f' then c as int - 'a' as int + 10
    else c as int - 'A' as int + 10
  }

  lemma HexValueOfHexDigit(d: nat)
    requires d < 16
    ensures IsLowerHexChar(HexDigits[d]) && HexValue(HexDigits[d]) == d
  {
  }

  /** `buf.toString('hex')`: two lower-case digits per byte, high nibble first. */
  function HexEncode(bytes: seq<uint8>): (s: string)
    ensures |s| == 2 * |bytes|
    ensures IsLowerHex(s)
  {
    if |bytes| == 0 then ""
    else
      var b := bytes[0] as int;
      HexValueOfHexDigit(b / 16);
      HexValueOfHexDigit(b % 16);
      [HexDigits[b / 16], HexDigits[b % 16]] + HexEncode(bytes[1..])
  }

  /** Byte `i` is written at positions `2i` (high nibble) and `2i + 1` (low nibble). */
  lemma {:induction false} HexEncodeDigits(bytes: seq<uint8>, i: nat)
    requires i < |bytes|
    ensures IsLowerHexChar(HexEncode(bytes)[2 * i]) && IsLowerHexChar(HexEncode(bytes)[2 * i + 1])
    ensures HexValue(HexEncode(bytes)[2 * i]) == bytes[i] as int / 16
    ensures HexValue(HexEncode(bytes)[2 * i + 1]) == bytes[i] as int % 16
    decreases i
  {
    var b := bytes[0] as int;
    HexValueOfHexDigit(b / 16);
    HexValueOfHexDigit(b % 16);
    var s := HexEncode(bytes);
    assert s == [HexDigits[b / 16], HexDigits[b % 16]] + HexEncode(bytes[1..]);
    if i > 0 {
      HexEncodeDigits(bytes[1..], i - 1);
      assert s[2 * i] == HexEncode(bytes[1..])[2 * (i - 1)];
      assert s[2 * i + 1] == HexEncode(bytes[1..])[2 * (i - 1) + 1];
    }
  }

  /** `Buffer.from(s, 'hex')`: decodes digit pairs from the front, in either
      case, and stops at the first pair that is not two hexadecimal digits;
      a trailing odd digit is dropped. */
  function HexDecode(s: string): (bytes: seq<uint8>)
    ensures |bytes| <= |s| / 2
    decreases |s|
  {
    if |s| < 2 || !IsHexChar(s[0]) || !IsHexChar(s[1]) then []
    else [(16 * HexValue(s[0]) + HexValue(s[1])) as uint8] + HexDecode(s[2..])
  }

  /** Byte `i` of the decoding is the value of the digit pair at `2i`, and
      decoding stops exactly at the first position whose pair is not two
      hexadecimal digits (or that has no full pair left). */
  lemma {:induction false} HexDecodePairs(s: string, i: nat)
    ensures i < |HexDecode(s)| ==>
              && 2 * i + 1 < |s| && IsHexChar(s[2 * i]) && IsHexChar(s[2 * i + 1])
              && HexDecode(s)[i] as int == 16 * HexValue(s[2 * i]) + HexValue(s[2 * i + 1])
    ensures i == |HexDecode(s)| ==> !(2 * i + 1 < |s| && IsHexChar(s[2 * i]) && IsHexChar(s[2 * i + 1]))
    decreases i
  {
    var d := HexDecode(s);
    if |s| >= 2 && IsHexChar(s[0]) && IsHexChar(s[1]) {
      var t := s[2..];
      var dt := HexDecode(t);
      assert d == [(16 * HexValue(s[0]) + HexValue(s[1])) as uint8] + dt;
      if i > 0 {
        HexDecodePairs(t, i - 1);
        if 2 * i + 1 < |s| {
          assert s[2 * i] == t[2 * (i - 1)];
          assert s[2 * i + 1] == t[2 * (i - 1) + 1];
        }
        if i < |d| {
          assert d[i] == dt[i - 1];
        }
      }
    }
  }

  /** Decoding an encoding gives back the bytes. */
  lemma {:induction false} HexDecodeOfEncode(bytes: seq<uint8>)
    ensures HexDecode(HexEncode(bytes)) == bytes
  {
    if |bytes| > 0 {
      var b := bytes[0] as int;
      var s := HexEncode(bytes);
      HexValueOfHexDigit(b / 16);
      HexValueOfHexDigit(b % 16);
      assert s[2..] == HexEncode(bytes[1..]);
      HexDecodeOfEncode(bytes[1..]);
      assert (16 * HexValue(s[0]) + HexValue(s[1])) == b;
    }
  }

  /** Encoding the decoding of an even-length lower-case hex string gives back the string. */
  lemma {:induction false} HexEncodeOfDecode(s: string)
    requires |s| % 2 == 0
    requires IsLowerHex(s)
    ensures HexEncode(HexDecode(s)) == s
    decreases |s|
  {
    if |s| >= 2 {
      var t := s[2..];
      assert IsLowerHex(t) by {
        forall k | 0 <= k < |t| ensures IsLowerHexChar(t[k]) {
          assert t[k] == s[k + 2];
        }
      }
      var x := PairByte(s[0], s[1]);
      var rest := HexDecode(t);
      calc {
        HexEncode(HexDecode(s));
        { HexDecodeCons(s); }
        HexEncode([x] + rest);
        { HexEncodeCons(x, rest); }
        [HexDigits[x as int / 16], HexDigits[x as int % 16]] + HexEncode(rest);
        { PairRoundTrip(s[0], s[1]); HexEncodeOfDecode(t); }
        [s[0], s[1]] + t;
        s;
      }
    }
  }

  /** A leading pair of hexadecimal digits decodes to the first byte. */
  lemma HexDecodeCons(s: string)
    requires |s| >= 2 && IsHexChar(s[0]) && IsHexChar(s[1])
    ensures HexDecode(s) == [PairByte(s[0], s[1])] + HexDecode(s[2..])
  {
  }

  /** Encoding a byte in front of a buffer puts its two digits in front of the encoding. */
  lemma HexEncodeCons(x: uint8, rest: seq<uint8>)
    ensures HexEncode([x] + rest) == [HexDigits[x as int / 16], HexDigits[x as int % 16]] + HexEncode(rest)
  {
    assert ([x] + rest)[1..] == rest;
  }

  /** The byte a pair of hexadecimal digits stands for. */
  function PairByte(hi: char, lo: char): (x: uint8)
    requires IsHexChar(hi) && IsHexChar(lo)
    ensures x as int == 16 * HexValue(hi) + HexValue(lo)
  {
    (16 * HexValue(hi) + HexValue(lo)) as uint8
  }

  /** A pair of lower-case digits decodes to a byte that encodes back to the pair. */
  lemma PairRoundTrip(hi: char, lo: char)
    requires IsLowerHexChar(hi) && IsLowerHexChar(lo)
    ensures HexDigits[PairByte(hi, lo) as int / 16] == hi
    ensures HexDigits[PairByte(hi, lo) as int % 16] == lo
  {
    var h := HexValue(hi);
    var l := HexValue(lo);
    LowerHexDigitIsTableEntry(hi);
    LowerHexDigitIsTableEntry(lo);
    var b := PairByte(hi, lo) as int;
    assert b == 16 * h + l;
    assert b / 16 == h && b % 16 == l;
  }

  lemma LowerHexDigitIsTableEntry(c: char)
    requires IsLowerHexChar(c)
    ensures HexValue(c) < 16 && HexDigits[HexValue(c)] == c
  {
  }

  /** `needle` occurs in `hay` starting at index `k`. */
  predicate OccursAt<T(==)>(hay: seq<T>, needle: seq<T>, k: int) {
    0 <= k && k + |needle| <= |hay| && hay[k..k + |needle|] == needle
  }

  /** `hay.indexOf(needle)`: the first index at which `needle` occurs, or -1. */
  function IndexOf<T(==)>(hay: seq<T>, needle: seq<T>): (r: int)
    ensures r == -1 || OccursAt(hay, needle, r)
    ensures r == -1 <==> forall k :: 0 <= k <= |hay| ==> !OccursAt(hay, needle, k)
    ensures forall k :: 0 <= k < r ==> !OccursAt(hay, needle, k)
  {
    IndexOfFrom(hay, needle, 0)
  }

  function IndexOfFrom<T(==)>(hay: seq<T>, needle: seq<T>, from: nat): (r: int)
    requires from <= |hay|
    ensures r == -1 || (from <= r && OccursAt(hay, needle, r))
    ensures r == -1 <==> forall k :: from <= k <= |hay| ==> !OccursAt(hay, needle, k)
    ensures forall k :: from <= k < r ==> !OccursAt(hay, needle, k)
    decreases |hay| - from
  {
    if OccursAt(hay, needle, from) then from
    else if from == |hay| then -1
    else IndexOfFrom(hay, needle, from + 1)
  }
}

=== FILE: wrappers.dfy ===
/** An optional value and an outcome that is either a value or an error.
    Every step of the model that can throw in JavaScript returns a `Result`,
    the thrown error sitting in `Failure`; the members below let `:-` stop at
    the first such error and hand it on unchanged. */
module Wrappers {

  datatype Option<+T> = None | Some(value: T) {

    predicate IsFailure() {
      None?
    }

    function PropagateFailure<U>(): Option<U>
      requires None?
    {
      None
    }

    function Extract(): T
      requires Some?
    {
      value
    }
  }

  datatype Result<+R, +E> = Success(value: R) | Failure(error: E) {

    predicate IsFailure() {
      Failure?
    }

    function PropagateFailure<U>(): Result<U, E>
      requires Failure?
    {
      Failure(error)
    }

    function Extract(): R
      requires Success?
    {
      value
    }
  }
}
